=== FILE: README.md ===
# Cart quantity and stock model of the Serandib Plaza cart page

This project models the cart arithmetic of the storefront's cart page
(`frontend/src/pages/CartPage.js`) as pure Dafny functions and proves properties about it.
The axios calls, the React state hooks and the rendering are left out. What remains is a
small state machine over the page's cart list and the stored stock counter of each product:

- **Quantity step** (`QuantityStep.Step`). A "+" click is accepted only while the displayed
  quantity is below the product's stock counter. A "-" click is accepted only while the
  quantity is above 1. Any other request changes nothing. An accepted step writes the new
  quantity and a stock value moved by the opposite amount (−1 for "+", +1 for "-").
- **Local list updates** (`CartList`). The page rewrites the line with a given `_id` by a
  `map`, and drops a line with a `filter` that also discards null entries.
- **Removal** (`CartSession.RemoveLine`). The line leaves the cart, and its whole quantity
  goes back to its product's stock.
- **Total** (`CartTotal.Total`). A left fold of price × displayed quantity. The displayed
  quantity is the override entry when present and truthy, else the line's own quantity.
- **Consistency** (`Consistency`). This invariant says that a product's stored stock plus
  what the cart holds of it equals the product's fixed total, and that stored stock is
  never negative. The corrected page keeps it. The page as written breaks it after one
  accepted click (see "## Findings").

Prices and quantities are integers (prices in minor currency units). Ids are strings.

The code has no add-to-cart or checkout operation on this page, no locking, and no
recovery for a request that fails halfway. The model covers only the code. The code's
increase guard compares the cart quantity with the *remaining* stock counter, not with
zero. So an increase is refused once the cart holds as many units as remain in stock, even
when stock is left. This is stricter than necessary but never oversells, and it is
modelled as written.

A cart entry may be null. The delete filter drops nulls. The `map` at line 81, the total at
line 98 and the rendering all read fields of every entry, so they throw on a null. `MapById`
and `Total` return `None` in that case. The click transitions require a cart without nulls,
because no button is rendered otherwise.

The page never calls `setQuantities`, so the override map is always empty while the page
runs. The transitions therefore read the quantity through an empty override map. `Total`
accepts any override map.

## Model

| member | source | states |
|---|---|---|
| QuantityStep.Step | frontend/src/pages/CartPage.js:67-87 | accepted exactly when an increase is below the stock counter or a decrease is above 1; an increase never exceeds the stock counter, a decrease never goes below 1; cart quantity plus written stock equals the quantity plus stock passed in; written stock is non-negative for non-negative inputs |
| CartTypes.EffectiveQuantity | frontend/src/pages/CartPage.js:98 | a present non-zero override entry is the result; a missing or 0 entry falls back to the line's own quantity |
| CartList.MapById | frontend/src/pages/CartPage.js:81 | a null entry makes the update fail as a whole; otherwise length and order are kept, lines with another id are unchanged and matching lines are rewritten |
| CartList.UpdateQuantity | frontend/src/pages/CartPage.js:81 | only the quantity of the matching line changes; ids and embedded products of all lines are untouched |
| CartList.UpdateQuantityAndStock | frontend/src/pages/CartPage.js:81-87 | corrected update: the matching line takes both the new quantity and the stock value just written; every other line is unchanged |
| CartList.MapByIdAt | frontend/src/pages/CartPage.js:81 | with unique line ids the update equals replacing exactly one position |
| CartList.DeleteById | frontend/src/pages/CartPage.js:49 | the result holds no null and no line with the id; every non-null line with another id is kept; nothing is added |
| CartList.DeleteConcat | frontend/src/pages/CartPage.js:49 | the filter distributes over concatenation, so surviving lines keep their original order |
| CartList.DeleteAbsent | frontend/src/pages/CartPage.js:49 | a null-free cart without the id is returned unchanged |
| CartList.DeleteIdempotent | frontend/src/pages/CartPage.js:49 | deleting the same id twice equals deleting it once |
| CartList.DeleteKeepsUnique | frontend/src/pages/CartPage.js:49 | uniqueness of line ids or of products survives the delete |
| Reservations.ReservedAfterSet | frontend/src/pages/CartPage.js:81 | rewriting one line moves the product's held quantity by exactly that line's difference |
| Reservations.ReservedAfterDelete | frontend/src/pages/CartPage.js:49 | with unique ids, deleting a line removes exactly its quantity from its product's held total and nothing from any other product |
| Reservations.ReservedOwnLine | frontend/src/pages/CartPage.js:49-56 | with one line per product, the product's held total is that line's quantity |
| CartTotal.TotalFrom | frontend/src/pages/CartPage.js:98 | the fold yields a value exactly when the cart has no null entry |
| CartTotal.TotalFromIsSum | frontend/src/pages/CartPage.js:97-99 | the left fold from an accumulator adds exactly the sum of price times displayed quantity |
| CartTotal.Total | frontend/src/pages/CartPage.js:97-99 | the total of an empty cart is 0; a null-free cart's total is the sum of price times displayed quantity; a cart with a null has none |
| CartTotal.LineSumNonNegative | frontend/src/pages/CartPage.js:97-99 | non-negative prices and quantities give a non-negative sum |
| CartTotal.TotalNonNegative | frontend/src/pages/CartPage.js:97-99 | the total of a null-free cart with non-negative lines exists and is non-negative |
| CartSession.AdjustAsWritten | frontend/src/pages/CartPage.js:67-87 | a refused step changes nothing; an accepted one sets line k to the step's new quantity and the product's stored stock to the step's new stock, and nothing else in the stock map; lines with another id are unchanged; line k keeps its id and its embedded product, including the stale stock counter |
| CartSession.AdjustSynced | frontend/src/pages/CartPage.js:67-87 | a refused step changes nothing; an accepted one sets line k to the step's new quantity, the stored stock to the step's new stock (nothing else in the stock map) and line k's counter to that same value; line k keeps its id, product id and price; lines with another id are unchanged |
| CartSession.RemoveLine | frontend/src/pages/CartPage.js:46-56 | the cart becomes the delete filter of the line's id, so every other line survives in order; the stock map changes only at the line's product, which becomes the line's stock counter plus its quantity |
| Consistency.Next | frontend/src/pages/CartPage.js:145-161 | corrected page's click relation, fed the line's quantity and its product's stock counter as the buttons pass them: a click yields a state exactly when its line is rendered; a refused "+"/"-" changes nothing; an accepted one sets the line to the step's new quantity and the product's stored stock to the step's new stock, keeping the cart's length and leaving no null; a remove yields the delete filter of that line's id and sets the product's stock to the line's counter plus its quantity |
| Consistency.AdjustKeepsValid | frontend/src/pages/CartPage.js:67-87 | a corrected "+"/"-" click keeps stock non-negative, stock plus held quantity equal to the total, and the lines unique and synced |
| Consistency.RemoveKeepsValid | frontend/src/pages/CartPage.js:46-56 | a remove click keeps the same invariant |
| Consistency.NextKeepsValid | frontend/src/pages/CartPage.js:46-87 | corrected page: every enabled click keeps the invariant |
| Consistency.RunKeepsValid | frontend/src/pages/CartPage.js:46-87 | corrected page: after any sequence of clicks the invariant holds and no product is oversold |
| Consistency.IncreaseThenDecrease | frontend/src/pages/CartPage.js:67-87 | corrected page: "+" then "-" on the same line restores the exact previous state |
| Consistency.RemoveRestoresStock | frontend/src/pages/CartPage.js:54-56 | from a valid (synced) state, a remove sets the product's stock to its total, the value before the line reserved anything; on the page as written a remove after an accepted click does not |
| Consistency.AsWrittenIncreaseDesyncs | frontend/src/pages/CartPage.js:81-87 | as written, an accepted "+" leaves the page's stock counter different from the stored one |
| Consistency.AsWrittenIncreaseThenDecreaseDrifts | frontend/src/pages/CartPage.js:81-87 | as written, "+" then "-" restores the line but leaves stored stock one unit too high, breaking conservation |
| Consistency.AsWrittenDoubleIncreaseExample | frontend/src/pages/CartPage.js:81-87 | as written, two "+" clicks from quantity 1 and stock 5 of 6 give 3 in the cart and 4 in stock; a remove after one "+" stores 7 |

## Findings

| source | as written | input that shows it | evidently intended | confidence | as-written member | corrected member |
|---|---|---|---|---|---|---|
| frontend/src/pages/CartPage.js:81 | the local update sets only `item.quantity`; `item.product.quantity` keeps the value fetched with the cart, and it is reused as the stock base of the next click (lines 147, 154, 86) and of the remove (line 160) | one line of quantity 1 whose product has 5 in stock out of 6: "+" twice gives 3 in the cart and 4 stored (7 units); "+" then "-" stores 6 with 1 in the cart; "+" then remove stores 7 | each click moves the stored stock by exactly one unit from its current value, so the page's counter must follow the value written at line 86 (or the cart must be refetched) | high; not executed | CartSession.AdjustAsWritten, Consistency.AsWrittenIncreaseThenDecreaseDrifts, Consistency.AsWrittenDoubleIncreaseExample | CartSession.AdjustSynced, Consistency.AdjustKeepsValid, Consistency.IncreaseThenDecrease |

The transition relation `Consistency.Next` uses the corrected `AdjustSynced`.

## Left out

- Network calls: every axios request, the order of the two requests in each handler, and
  their partial failure (the swallowed stock-update error at lines 57-59, the caught errors
  at lines 60-62 and 91-93). The model assumes every request succeeds.
- The cart fetch at lines 23-35 and the auth effect at lines 38-43. Refetching the cart would
  resynchronise the page's stock counters. The model has no reload event, because that is I/O.
- `toast` and `console.error` calls, React hooks and the JSX rendering (lines 111-175),
  except the fact that buttons exist only for rendered lines.
- `formatPrice` (lines 10-12). It wraps a locale-formatting call outside the program.
- Floating-point arithmetic. Prices and quantities are integers.
- JavaScript loose typing. `type` is a string compared by equality, and quantities are integers.
- The commented-out local `updateQuantity` (lines 102-109). It is dead code.
- `backend/server.js`. It is server bootstrap only and holds unresolved merge-conflict markers.
- Concurrency. The handlers are asynchronous. Each maps or filters the cart captured when
  the page last rendered (lines 49, 81) and writes an absolute stock value computed from the
  page's copy (lines 55, 86). A second click before the first settles, or another
  customer's stock write after the fetch, is therefore lost. The model does not cover this.
  It assumes that:
  - each click's requests settle and the page re-renders before the next click;
  - this page is the only writer of the product's stock;
  - the product-quantity update stores exactly the value sent;
  - the fetched cart has one line per line id and one line per product, and every line has
    quantity at least 1. `Consistency.WellFormed` requires both, and the page checks neither.
    Without the second, a line of quantity -1 against stock 0 passes the increase guard and
    writes stock -1.

=== FILE: cart_list.dfy ===
/** The local cart-list updates of the cart page: the map that rewrites the line with a
    given `_id`, and the filter that drops it. */
module CartList {
  import opened Wrappers
  import opened CartTypes

  /** The page's update by line id. Reading the id of a null entry throws, so a cart holding
      a null yields None and nothing is updated. Otherwise every line whose id matches is
      rewritten by `f` and every other entry is kept, in place. */
  function MapById(cart: Cart, id: ItemId, f: Item -> Item): (r: Option<Cart>)
    ensures r.Some? <==> NoNulls(cart)
    ensures r.Some? ==> |r.value| == |cart|
    ensures r.Some? ==> forall i :: 0 <= i < |cart| && cart[i].Some? && cart[i].value.id != id ==>
      r.value[i] == cart[i]
    ensures r.Some? ==> forall i :: 0 <= i < |cart| && cart[i].Some? && cart[i].value.id == id ==>
      r.value[i] == Some(f(cart[i].value))
  {
    if |cart| == 0 then Some([])
    else
      match cart[0]
      case None => None
      case Some(it) =>
        match MapById(cart[1..], id, f)
        case None => None
        case Some(rest) => Some([Some(if it.id == id then f(it) else it)] + rest)
  }

  /** A copy of a line with a new quantity and everything else as it was. */
  function SetQuantity(quantity: int): Item -> Item {
    (it: Item) => it.(quantity := quantity)
  }

  /** The same, also refreshing the embedded product's stock counter. */
  function SetQuantityAndStock(quantity: int, stock: int): Item -> Item {
    (it: Item) => it.(quantity := quantity, product := it.product.(quantity := stock))
  }

  /** The page's quantity update: only `quantity` of the matching line changes; its id and
      its embedded product (with the product's stock counter) are left as they were. */
  function UpdateQuantity(cart: Cart, id: ItemId, quantity: int): (r: Option<Cart>)
    ensures r.Some? <==> NoNulls(cart)
    ensures r.Some? ==> |r.value| == |cart| && forall i :: 0 <= i < |cart| && cart[i].Some? ==>
      && r.value[i].Some?
      && r.value[i].value.id == cart[i].value.id
      && r.value[i].value.product == cart[i].value.product
      && r.value[i].value.quantity == (if cart[i].value.id == id then quantity else cart[i].value.quantity)
  {
    MapById(cart, id, SetQuantity(quantity))
  }

  /** The corrected update: the matching line takes the new quantity AND its embedded
      product takes the stock value just written, so the page's copy of the stock counter
      stays equal to the stored one. */
  function UpdateQuantityAndStock(cart: Cart, id: ItemId, quantity: int, stock: int): (r: Option<Cart>)
    ensures r.Some? <==> NoNulls(cart)
    ensures r.Some? ==> |r.value| == |cart| && forall i :: 0 <= i < |cart| && cart[i].Some? ==>
      && r.value[i].Some?
      && r.value[i].value.id == cart[i].value.id
      && r.value[i].value.product.id == cart[i].value.product.id
      && r.value[i].value.product.price == cart[i].value.product.price
      && (cart[i].value.id == id ==> r.value[i].value.quantity == quantity && r.value[i].value.product.quantity == stock)
      && (cart[i].value.id != id ==> r.value[i] == cart[i])
  {
    MapById(cart, id, SetQuantityAndStock(quantity, stock))
  }

  /** The delete filter: keeps the non-null lines whose id
      differs, in order, and nothing else. */
  function DeleteById(cart: Cart, id: ItemId): (r: Cart)
    ensures |r| <= |cart|
    ensures forall x :: x in r ==> x in cart && x.Some? && x.value.id != id
    ensures forall x :: x in cart && x.Some? && x.value.id != id ==> x in r
  {
    if |cart| == 0 then []
    else if cart[0].Some? && cart[0].value.id != id then [cart[0]] + DeleteById(cart[1..], id)
    else DeleteById(cart[1..], id)
  }

  /** The filter distributes over concatenation: it keeps the surviving lines in their
      original relative order. */
  lemma {:induction false} DeleteConcat(a: Cart, b: Cart, id: ItemId)
    ensures DeleteById(a + b, id) == DeleteById(a, id) + DeleteById(b, id)
    decreases |a|
  {
    if |a| == 0 {
      assert a + b == b;
    } else {
      assert (a + b)[0] == a[0];
      assert (a + b)[1..] == a[1..] + b;
      DeleteConcat(a[1..], b, id);
    }
  }

  /** A cart without nulls and without a line of that id is left unchanged. */
  lemma {:induction false} DeleteAbsent(cart: Cart, id: ItemId)
    requires NoNulls(cart)
    requires forall i :: 0 <= i < |cart| ==> cart[i].value.id != id
    ensures DeleteById(cart, id) == cart
    decreases |cart|
  {
    if |cart| > 0 {
      DeleteAbsent(cart[1..], id);
      assert [cart[0]] + cart[1..] == cart;
    }
  }

  /** Deleting twice is deleting once: the second delete finds nothing to remove. */
  lemma DeleteIdempotent(cart: Cart, id: ItemId)
    ensures DeleteById(DeleteById(cart, id), id) == DeleteById(cart, id)
  {
  }

  /** Uniqueness of a key survives the filter. */
  lemma {:induction false} DeleteKeepsUnique(cart: Cart, id: ItemId, key: Item -> string)
    requires UniqueBy(cart, key)
    ensures UniqueBy(DeleteById(cart, id), key)
    decreases |cart|
  {
    if |cart| > 0 {
      var rest := cart[1..];
      assert UniqueBy(rest, key) by {
        forall i, j | 0 <= i < j < |rest| && rest[i].Some? && rest[j].Some?
          ensures key(rest[i].value) != key(rest[j].value)
        {
          assert rest[i] == cart[i + 1] && rest[j] == cart[j + 1];
        }
      }
      DeleteKeepsUnique(rest, id, key);
      if cart[0].Some? && cart[0].value.id != id {
        var d := DeleteById(rest, id);
        var r := [cart[0]] + d;
        forall i, j | 0 <= i < j < |r| && r[i].Some? && r[j].Some?
          ensures key(r[i].value) != key(r[j].value)
        {
          if i == 0 {
            assert r[j] == d[j - 1];
            assert d[j - 1] in d;
            assert r[j] in rest;
            var m :| 0 <= m < |rest| && rest[m] == r[j];
            assert cart[m + 1] == r[j];
          } else {
            assert r[i] == d[i - 1] && r[j] == d[j - 1];
          }
        }
      }
    }
  }

  /** With unique ids the map rewrites exactly the one line it was asked for. */
  lemma MapByIdAt(cart: Cart, k: int, f: Item -> Item)
    requires NoNulls(cart) && UniqueBy(cart, ItemKey)
    requires 0 <= k < |cart|
    ensures MapById(cart, cart[k].value.id, f) == Some(cart[k := Some(f(cart[k].value))])
  {
    var id := cart[k].value.id;
    var m := MapById(cart, id, f);
    assert m.Some?;
    var r := m.value;
    var u := cart[k := Some(f(cart[k].value))];
    assert |r| == |u|;
    forall i | 0 <= i < |cart|
      ensures r[i] == u[i]
    {
      if i == k {
        assert cart[i].value.id == id;
      } else if i < k {
        assert ItemKey(cart[i].value) != ItemKey(cart[k].value);
      } else {
        assert ItemKey(cart[k].value) != ItemKey(cart[i].value);
      }
    }
    assert r == u;
  }

  /** Replacing one line by one with the same key keeps that key unique. */
  lemma UniqueAfterSet(cart: Cart, k: int, x: Item, key: Item -> string)
    requires UniqueBy(cart, key)
    requires 0 <= k < |cart| && cart[k].Some? && key(x) == key(cart[k].value)
    ensures UniqueBy(cart[k := Some(x)], key)
  {
  }
}

=== FILE: cart_session.dfy ===
/** The cart page as a state machine over (cart, stored stock): a click on "+" or "-" of a
    rendered line, or on its "Remove" button, moves both together. The stored stock is the
    per-product counter the page writes with its product-quantity update; the cart is the
    page's list, which mirrors the stored cart after each successful update. */
module CartSession {
  import opened Wrappers
  import opened CartTypes
  import opened QuantityStep
  import opened CartList
  import opened Reservations

  datatype State = State(cart: Cart, stock: map<ProductId, int>)

  /** A user action on the line rendered at position `index`. */
  datatype Event = Adjust(index: nat, kind: string) | Remove(index: nat)

  /** The buttons of line `k` exist only when the page could render the cart, which it
      cannot when an entry is null. */
  predicate Enabled(s: State, k: int) {
    NoNulls(s.cart) && 0 <= k < |s.cart|
  }

  /** The update as the page performs it: the step reads the line's displayed quantity and
      its embedded product's stock counter, writes the new quantity into the line and the new
      stock value into the store, but leaves the embedded counter as it was. */
  function AdjustAsWritten(s: State, k: int, kind: string): (r: State)
    requires Enabled(s, k)
    ensures Step(kind, s.cart[k].value.quantity, s.cart[k].value.product.quantity).None? ==> r == s
    ensures |r.cart| == |s.cart| && NoNulls(r.cart)
    ensures r.cart[k].value.id == s.cart[k].value.id
    ensures r.cart[k].value.product == s.cart[k].value.product
    ensures Step(kind, s.cart[k].value.quantity, s.cart[k].value.product.quantity).Some? ==>
      && r.cart[k].value.quantity == Step(kind, s.cart[k].value.quantity, s.cart[k].value.product.quantity).value.newQuantity
      && r.stock == s.stock[s.cart[k].value.product.id :=
           Step(kind, s.cart[k].value.quantity, s.cart[k].value.product.quantity).value.newStock]
    ensures forall i :: 0 <= i < |s.cart| && s.cart[i].value.id != s.cart[k].value.id ==> r.cart[i] == s.cart[i]
  {
    var p := s.cart[k].value;
    match Step(kind, EffectiveQuantity(map[], p), p.product.quantity)
    case None => s
    case Some(m) =>
      State(UpdateQuantity(s.cart, p.id, m.newQuantity).value, s.stock[p.product.id := m.newStock])
  }

  /** The corrected update: as above, but the line's embedded stock counter takes the value
      just stored, so the next click starts from the stored stock. */
  function AdjustSynced(s: State, k: int, kind: string): (r: State)
    requires Enabled(s, k)
    ensures Step(kind, s.cart[k].value.quantity, s.cart[k].value.product.quantity).None? ==> r == s
    ensures |r.cart| == |s.cart| && NoNulls(r.cart)
    ensures r.cart[k].value.id == s.cart[k].value.id
    ensures r.cart[k].value.product.id == s.cart[k].value.product.id
    ensures r.cart[k].value.product.price == s.cart[k].value.product.price
    ensures Step(kind, s.cart[k].value.quantity, s.cart[k].value.product.quantity).Some? ==>
      && r.cart[k].value.quantity == Step(kind, s.cart[k].value.quantity, s.cart[k].value.product.quantity).value.newQuantity
      && r.stock == s.stock[s.cart[k].value.product.id :=
           Step(kind, s.cart[k].value.quantity, s.cart[k].value.product.quantity).value.newStock]
    ensures Step(kind, s.cart[k].value.quantity, s.cart[k].value.product.quantity).Some? ==>
      r.cart[k].value.product.quantity == r.stock[s.cart[k].value.product.id]
    ensures forall i :: 0 <= i < |s.cart| && s.cart[i].value.id != s.cart[k].value.id ==> r.cart[i] == s.cart[i]
  {
    var p := s.cart[k].value;
    match Step(kind, EffectiveQuantity(map[], p), p.product.quantity)
    case None => s
    case Some(m) =>
      State(UpdateQuantityAndStock(s.cart, p.id, m.newQuantity, m.newStock).value,
            s.stock[p.product.id := m.newStock])
  }

  /** The delete: the line leaves the cart and the stored stock of its product is set to the
      embedded counter plus the line's quantity. */
  function RemoveLine(s: State, k: int): (r: State)
    requires Enabled(s, k)
    ensures NoNulls(r.cart)
    ensures r.cart == DeleteById(s.cart, s.cart[k].value.id)
    ensures forall i :: 0 <= i < |r.cart| ==> r.cart[i].value.id != s.cart[k].value.id
    ensures r.stock == s.stock[s.cart[k].value.product.id := s.cart[k].value.product.quantity + s.cart[k].value.quantity]
  {
    var p := s.cart[k].value;
    State(DeleteById(s.cart, p.id), s.stock[p.product.id := p.product.quantity + p.quantity])
  }
}

=== FILE: cart_total.dfy ===
/** The cart total of the cart page: a left fold of price times displayed quantity. */
module CartTotal {
  import opened Wrappers
  import opened CartTypes

  /** The value of one line: its product's price times its displayed quantity. */
  function LineValue(overrides: Overrides, it: Item): int {
    it.product.price * EffectiveQuantity(overrides, it)
  }

  /** Reference definition: the sum of the line values of a cart, ignoring null entries. */
  function LineSum(cart: Cart, overrides: Overrides): int
    decreases |cart|
  {
    if |cart| == 0 then 0
    else (if cart[0].Some? then LineValue(overrides, cart[0].value) else 0) + LineSum(cart[1..], overrides)
  }

  /** Adds the line values to `acc` from the first line to the last. Reading the product of
      a null entry throws, so a cart holding a null has no total (None). */
  function TotalFrom(cart: Cart, overrides: Overrides, acc: int): (r: Option<int>)
    ensures r.Some? <==> NoNulls(cart)
    decreases |cart|
  {
    if |cart| == 0 then Some(acc)
    else
      match cart[0]
      case None => None
      case Some(it) => TotalFrom(cart[1..], overrides, acc + LineValue(overrides, it))
  }

  /** The left fold from `acc` adds exactly the reference sum to `acc`. */
  lemma {:induction false} TotalFromIsSum(cart: Cart, overrides: Overrides, acc: int)
    requires NoNulls(cart)
    ensures TotalFrom(cart, overrides, acc) == Some(acc + LineSum(cart, overrides))
    decreases |cart|
  {
    if |cart| > 0 {
      TotalFromIsSum(cart[1..], overrides, acc + LineValue(overrides, cart[0].value));
    }
  }

  /** The page's `totalPrice()`: the fold started at 0. */
  function Total(cart: Cart, overrides: Overrides): (r: Option<int>)
    ensures r.Some? <==> NoNulls(cart)
    ensures r.Some? ==> r.value == LineSum(cart, overrides)
    ensures |cart| == 0 ==> r == Some(0)
  {
    if NoNulls(cart) then TotalFromIsSum(cart, overrides, 0); TotalFrom(cart, overrides, 0)
    else TotalFrom(cart, overrides, 0)
  }

  /** Every line has a non-negative price and a non-negative displayed quantity. */
  predicate NonNegativeLines(cart: Cart, overrides: Overrides) {
    forall i :: 0 <= i < |cart| && cart[i].Some? ==>
      cart[i].value.product.price >= 0 && EffectiveQuantity(overrides, cart[i].value) >= 0
  }

  /** Non-negative prices and quantities give a non-negative total. */
  lemma {:induction false} LineSumNonNegative(cart: Cart, overrides: Overrides)
    requires NonNegativeLines(cart, overrides)
    ensures LineSum(cart, overrides) >= 0
    decreases |cart|
  {
    if |cart| > 0 {
      assert forall i :: 0 <= i < |cart| - 1 ==> cart[1..][i] == cart[i + 1];
      LineSumNonNegative(cart[1..], overrides);
      if cart[0].Some? {
        var it := cart[0].value;
        assert it.product.price * EffectiveQuantity(overrides, it) >= 0;
      }
    }
  }

  /** The total of a cart with non-negative lines is a non-negative amount. */
  lemma TotalNonNegative(cart: Cart, overrides: Overrides)
    requires NoNulls(cart) && NonNegativeLines(cart, overrides)
    ensures Total(cart, overrides).Some? && Total(cart, overrides).value >= 0
  {
    LineSumNonNegative(cart, overrides);
  }
}

=== FILE: cart_types.dfy ===
/** The entities of the cart page: a product as the cart response embeds it, a cart line
    item, and the cart itself as the ordered list the page keeps in its state. */
module CartTypes {
  import opened Wrappers

  type ItemId = string
  type ProductId = string

  /** The product embedded in a cart line. `quantity` is the product's stock counter as the
      page last saw it (the "Available" figure); prices are in minor currency units. */
  datatype Product = Product(id: ProductId, price: int, quantity: int)

  /** A cart line item: its own `_id`, the embedded product and the quantity in the cart. */
  datatype Item = Item(id: ItemId, product: Product, quantity: int)

  /** The cart list. An entry may be null (None); only the delete filter copes with that. */
  type Cart = seq<Option<Item>>

  /** The override map of the page, keyed by line item id. */
  type Overrides = map<ItemId, int>

  predicate NoNulls(cart: Cart) {
    forall i :: 0 <= i < |cart| ==> cart[i].Some?
  }

  function ItemKey(it: Item): string { it.id }

  function ProductKey(it: Item): string { it.product.id }

  /** No two non-null entries of `cart` share the same `key`. */
  predicate UniqueBy(cart: Cart, key: Item -> string) {
    forall i, j :: 0 <= i < j < |cart| && cart[i].Some? && cart[j].Some? ==>
      key(cart[i].value) != key(cart[j].value)
  }

  /** The quantity the page shows and sends for a line: the override when it is present and
      non-zero, otherwise the line's own quantity (a missing entry and 0 both count as
      absent). */
  function EffectiveQuantity(overrides: Overrides, it: Item): (r: int)
    ensures it.id !in overrides ==> r == it.quantity
    ensures it.id in overrides && overrides[it.id] != 0 ==> r == overrides[it.id]
    ensures r != it.quantity ==> it.id in overrides && r == overrides[it.id] && r != 0
  {
    if it.id in overrides && overrides[it.id] != 0 then overrides[it.id] else it.quantity
  }
}

=== FILE: consistency.dfy ===
/** The cart/stock consistency the page is meant to keep: every product's stored stock plus
    what the cart holds of it equals the product's fixed total, and the page's embedded copy
    of each stock counter equals the stored one. */
module Consistency {
  import opened Wrappers
  import opened CartTypes
  import opened QuantityStep
  import opened CartList
  import opened Reservations
  import opened CartSession

  /** The page can render the cart; one line per line id and per product; no empty line. */
  predicate WellFormed(s: State) {
    && NoNulls(s.cart)
    && UniqueBy(s.cart, ItemKey)
    && UniqueBy(s.cart, ProductKey)
    && forall i :: 0 <= i < |s.cart| && s.cart[i].Some? ==> s.cart[i].value.quantity >= 1
  }

  /** Each line's embedded stock counter is the stored one. */
  predicate Synced(s: State) {
    forall i :: 0 <= i < |s.cart| && s.cart[i].Some? ==>
      s.cart[i].value.product.id in s.stock && s.stock[s.cart[i].value.product.id] == s.cart[i].value.product.quantity
  }

  /** Stored stock is never negative and, with the cart's holding, adds up to the total. */
  predicate Conserved(s: State, totals: map<ProductId, int>) {
    && s.stock.Keys == totals.Keys
    && forall pid :: pid in s.stock ==> s.stock[pid] >= 0 && s.stock[pid] + Reserved(s.cart, pid) == totals[pid]
  }

  predicate Valid(s: State, totals: map<ProductId, int>) {
    WellFormed(s) && Synced(s) && Conserved(s, totals)
  }

  /** One step of the corrected page: a disabled button (no such rendered line) is None. */
  function Next(s: State, e: Event): (r: Option<State>)
    ensures r.Some? <==> Enabled(s, e.index)
    ensures r.Some? && e.Remove? ==> r.value.cart == DeleteById(s.cart, s.cart[e.index].value.id)
    ensures r.Some? && e.Adjust? ==> |r.value.cart| == |s.cart| && NoNulls(r.value.cart)
    ensures r.Some? && e.Adjust? && Step(e.kind, s.cart[e.index].value.quantity, s.cart[e.index].value.product.quantity).None? ==>
      r.value == s
    ensures r.Some? && e.Adjust? && Step(e.kind, s.cart[e.index].value.quantity, s.cart[e.index].value.product.quantity).Some? ==>
      && r.value.cart[e.index].value.quantity
         == Step(e.kind, s.cart[e.index].value.quantity, s.cart[e.index].value.product.quantity).value.newQuantity
      && r.value.stock == s.stock[s.cart[e.index].value.product.id :=
           Step(e.kind, s.cart[e.index].value.quantity, s.cart[e.index].value.product.quantity).value.newStock]
    ensures r.Some? && e.Remove? ==>
      r.value.stock == s.stock[s.cart[e.index].value.product.id :=
        s.cart[e.index].value.product.quantity + s.cart[e.index].value.quantity]
  {
    if !Enabled(s, e.index) then None
    else
      match e
      case Adjust(k, kind) => Some(AdjustSynced(s, k, kind))
      case Remove(k) => Some(RemoveLine(s, k))
  }

  /** A sequence of clicks, stopping at the first one whose button does not exist. */
  function Run(s: State, es: seq<Event>): Option<State>
    decreases |es|
  {
    if |es| == 0 then Some(s)
    else
      match Next(s, es[0])
      case None => None
      case Some(s') => Run(s', es[1..])
  }

  /** A "+"/"-" click of the corrected page keeps the state valid. */
  lemma AdjustKeepsValid(s: State, totals: map<ProductId, int>, k: int, kind: string)
    requires Valid(s, totals) && Enabled(s, k)
    ensures Valid(AdjustSynced(s, k, kind), totals)
  {
    var p := s.cart[k].value;
    var pid := p.product.id;
    var step := Step(kind, EffectiveQuantity(map[], p), p.product.quantity);
    if step.Some? {
      var m := step.value;
      var p' := SetQuantityAndStock(m.newQuantity, m.newStock)(p);
      MapByIdAt(s.cart, k, SetQuantityAndStock(m.newQuantity, m.newStock));
      var r := AdjustSynced(s, k, kind);
      assert r.cart == s.cart[k := Some(p')];
      assert r.stock == s.stock[pid := m.newStock];
      UniqueAfterSet(s.cart, k, p', ItemKey);
      UniqueAfterSet(s.cart, k, p', ProductKey);
      forall i | 0 <= i < |r.cart| && i != k
        ensures r.cart[i].value.product.id != pid
      {
        if i < k {
          assert ProductKey(s.cart[i].value) != ProductKey(s.cart[k].value);
        } else {
          assert ProductKey(s.cart[k].value) != ProductKey(s.cart[i].value);
        }
      }
      forall q | q in r.stock
        ensures r.stock[q] >= 0 && r.stock[q] + Reserved(r.cart, q) == totals[q]
      {
        ReservedAfterSet(s.cart, k, Some(p'), q);
      }
    }
  }

  /** A "Remove" click keeps the state valid, given that the embedded counters are synced. */
  lemma RemoveKeepsValid(s: State, totals: map<ProductId, int>, k: int)
    requires Valid(s, totals) && Enabled(s, k)
    ensures Valid(RemoveLine(s, k), totals)
  {
    var p := s.cart[k].value;
    var pid := p.product.id;
    var r := RemoveLine(s, k);
    DeleteKeepsUnique(s.cart, p.id, ItemKey);
    DeleteKeepsUnique(s.cart, p.id, ProductKey);
    forall i | 0 <= i < |r.cart|
      ensures r.cart[i].value.quantity >= 1
      ensures r.cart[i].value.product.id != pid
      ensures r.cart[i].value.product.id in r.stock
      ensures r.stock[r.cart[i].value.product.id] == r.cart[i].value.product.quantity
    {
      assert r.cart[i] in r.cart;
      var j :| 0 <= j < |s.cart| && s.cart[j] == r.cart[i];
      assert j != k;
      if j < k {
        assert ProductKey(s.cart[j].value) != ProductKey(s.cart[k].value);
      } else {
        assert ProductKey(s.cart[k].value) != ProductKey(s.cart[j].value);
      }
    }
    forall q | q in r.stock
      ensures r.stock[q] >= 0 && r.stock[q] + Reserved(r.cart, q) == totals[q]
    {
      ReservedAfterDelete(s.cart, k, q);
    }
  }

  /** Every enabled click keeps the state valid. */
  lemma NextKeepsValid(s: State, totals: map<ProductId, int>, e: Event)
    requires Valid(s, totals) && Next(s, e).Some?
    ensures Valid(Next(s, e).value, totals)
  {
    match e
    case Adjust(k, kind) => AdjustKeepsValid(s, totals, k, kind);
    case Remove(k) => RemoveKeepsValid(s, totals, k);
  }

  /** After any sequence of clicks, stock is never negative and never oversold. */
  lemma {:induction false} RunKeepsValid(s: State, totals: map<ProductId, int>, es: seq<Event>)
    requires Valid(s, totals) && Run(s, es).Some?
    ensures Valid(Run(s, es).value, totals)
    ensures forall pid :: pid in totals ==> Reserved(Run(s, es).value.cart, pid) <= totals[pid]
    decreases |es|
  {
    if |es| > 0 {
      NextKeepsValid(s, totals, es[0]);
      RunKeepsValid(Next(s, es[0]).value, totals, es[1..]);
    }
  }

  /** "+" then "-" on the same line gives back exactly the state before. */
  lemma IncreaseThenDecrease(s: State, totals: map<ProductId, int>, k: int)
    requires Valid(s, totals) && Enabled(s, k)
    requires s.cart[k].value.quantity < s.cart[k].value.product.quantity
    ensures AdjustSynced(AdjustSynced(s, k, Increase), k, Decrease) == s
  {
  }

  /** Removing a line puts its product's stock back to the total, the value it had before
      any of the line's quantity was reserved. */
  lemma RemoveRestoresStock(s: State, totals: map<ProductId, int>, k: int)
    requires Valid(s, totals) && Enabled(s, k)
    ensures s.cart[k].value.product.id in totals
    ensures RemoveLine(s, k).stock[s.cart[k].value.product.id] == totals[s.cart[k].value.product.id]
  {
    ReservedOwnLine(s.cart, k);
  }

  /** As written, an accepted "+" leaves the line's embedded stock counter one above the
      stored one, so the page and the store disagree from then on. */
  lemma AsWrittenIncreaseDesyncs(s: State, totals: map<ProductId, int>, k: int)
    requires Valid(s, totals) && Enabled(s, k)
    requires s.cart[k].value.quantity < s.cart[k].value.product.quantity
    ensures !Synced(AdjustAsWritten(s, k, Increase))
  {
  }

  /** As written, "+" then "-" restores the line's quantity but leaves the stored stock one
      unit higher than before: the second click writes the stale counter plus one. */
  lemma AsWrittenIncreaseThenDecreaseDrifts(s: State, totals: map<ProductId, int>, k: int)
    requires Valid(s, totals) && Enabled(s, k)
    requires s.cart[k].value.quantity < s.cart[k].value.product.quantity
    ensures Enabled(AdjustAsWritten(s, k, Increase), k)
    ensures AdjustAsWritten(AdjustAsWritten(s, k, Increase), k, Decrease).cart[k] == s.cart[k]
    ensures AdjustAsWritten(AdjustAsWritten(s, k, Increase), k, Decrease).stock[s.cart[k].value.product.id]
         == s.stock[s.cart[k].value.product.id] + 1
    ensures !Conserved(AdjustAsWritten(AdjustAsWritten(s, k, Increase), k, Decrease), totals)
  {
    var p := s.cart[k].value;
    var pid := p.product.id;
    var s1 := AdjustAsWritten(s, k, Increase);
    MapByIdAt(s.cart, k, SetQuantity(p.quantity + 1));
    assert s1.cart == s.cart[k := Some(p.(quantity := p.quantity + 1))];
    UniqueAfterSet(s.cart, k, p.(quantity := p.quantity + 1), ItemKey);
    MapByIdAt(s1.cart, k, SetQuantity(p.quantity));
    var s2 := AdjustAsWritten(s1, k, Decrease);
    assert s2.cart == s.cart[k := Some(p.(quantity := p.quantity + 1))][k := Some(p)];
    assert s2.cart == s.cart;
    ReservedOwnLine(s.cart, k);
  }

  /** A concrete run of the page as written: one line of quantity 1 whose product has 5 in
      stock out of 6. Two "+" clicks leave 3 in the cart and 4 in the store (7 units of 6),
      and a "Remove" after one "+" stores 7 (one unit created from nothing). */
  lemma AsWrittenDoubleIncreaseExample()
    ensures var s0 := State([Some(Item("line", Product("prod", 100, 5), 1))], map["prod" := 5]);
            var totals := map["prod" := 6];
            && Valid(s0, totals)
            && AdjustAsWritten(AdjustAsWritten(s0, 0, Increase), 0, Increase).cart[0].value.quantity == 3
            && AdjustAsWritten(AdjustAsWritten(s0, 0, Increase), 0, Increase).stock["prod"] == 4
            && !Conserved(AdjustAsWritten(AdjustAsWritten(s0, 0, Increase), 0, Increase), totals)
            && RemoveLine(AdjustAsWritten(s0, 0, Increase), 0).stock["prod"] == 7
  {
  }
}

=== FILE: quantity_step.dfy ===
/** The quantity step rule of the cart page's `updateQuantity`, together with the stock
    value it sends for the product. */
module QuantityStep {
  import opened Wrappers

  const Increase: string := "increase"
  const Decrease: string := "decrease"

  /** The outcome of an accepted step: the line's new quantity and the stock value written
      back for its product. */
  datatype Move = Move(newQuantity: int, newStock: int)

  /** The stock delta the page applies: -1 for an increase, +1 for anything else. */
  function StockChange(kind: string): int {
    if kind == Increase then -1 else 1
  }

  /** One click on "+" or "-": `current` is the displayed line quantity and `available` the
      product's stock counter. An increase is accepted only below the stock counter, a
      decrease only above 1; every other request changes nothing (None). An accepted step
      moves the stock by exactly the opposite of the cart delta. */
  function Step(kind: string, current: int, available: int): (r: Option<Move>)
    ensures r.Some? <==> (kind == Increase && current < available) || (kind == Decrease && current > 1)
    ensures r.Some? ==> r.value.newQuantity + r.value.newStock == current + available
    ensures r.Some? && kind == Increase ==> r.value.newQuantity == current + 1 && r.value.newQuantity <= available
    ensures r.Some? && kind == Decrease ==> r.value.newQuantity == current - 1 && r.value.newQuantity >= 1
    ensures r.Some? && current >= 0 && available >= 0 ==> r.value.newStock >= 0
  {
    var newQuantity :=
      if kind == Increase && current < available then Some(current + 1)
      else if kind == Decrease && current > 1 then Some(current - 1)
      else None;
    match newQuantity
    case None => None
    case Some(q) => Some(Move(q, available + StockChange(kind)))
  }
}

=== FILE: reservations.dfy ===
/** How many units of a product the cart holds, and how that figure moves under the
    cart-list updates. */
module Reservations {
  import opened Wrappers
  import opened CartTypes
  import opened CartList

  /** What one cart entry holds of product `pid`. */
  function Contribution(x: Option<Item>, pid: ProductId): int {
    if x.Some? && x.value.product.id == pid then x.value.quantity else 0
  }

  /** The total quantity of product `pid` held by the lines of `cart`. */
  function Reserved(cart: Cart, pid: ProductId): int
    decreases |cart|
  {
    if |cart| == 0 then 0 else Contribution(cart[0], pid) + Reserved(cart[1..], pid)
  }

  /** Replacing one entry moves the reserved total by the difference of the two entries. */
  lemma {:induction false} ReservedAfterSet(cart: Cart, k: int, x: Option<Item>, pid: ProductId)
    requires 0 <= k < |cart|
    ensures Reserved(cart[k := x], pid) == Reserved(cart, pid) - Contribution(cart[k], pid) + Contribution(x, pid)
    decreases |cart|
  {
    if k > 0 {
      assert cart[k := x][1..] == cart[1..][k - 1 := x];
      ReservedAfterSet(cart[1..], k - 1, x, pid);
    }
  }

  /** A cart with no line for `pid` reserves none of it. */
  lemma {:induction false} ReservedAbsent(cart: Cart, pid: ProductId)
    requires forall i :: 0 <= i < |cart| && cart[i].Some? ==> cart[i].value.product.id != pid
    ensures Reserved(cart, pid) == 0
    decreases |cart|
  {
    if |cart| > 0 {
      assert forall i :: 0 <= i < |cart| - 1 && cart[1..][i].Some? ==> cart[1..][i] == cart[i + 1];
      ReservedAbsent(cart[1..], pid);
    }
  }

  /** Filtering out an id that no line carries leaves every reserved total unchanged. */
  lemma {:induction false} ReservedDeleteAbsent(cart: Cart, id: ItemId, pid: ProductId)
    requires forall i :: 0 <= i < |cart| && cart[i].Some? ==> cart[i].value.id != id
    ensures Reserved(DeleteById(cart, id), pid) == Reserved(cart, pid)
    decreases |cart|
  {
    if |cart| > 0 {
      assert forall i :: 0 <= i < |cart| - 1 && cart[1..][i].Some? ==> cart[1..][i] == cart[i + 1];
      ReservedDeleteAbsent(cart[1..], id, pid);
      if cart[0].Some? {
        assert DeleteById(cart, id) == [cart[0]] + DeleteById(cart[1..], id);
        assert ([cart[0]] + DeleteById(cart[1..], id))[1..] == DeleteById(cart[1..], id);
      }
    }
  }

  /** With unique line ids, deleting line `k` by its id takes exactly that line's quantity
      out of its product's reserved total and leaves every other product's total alone. */
  lemma {:induction false} ReservedAfterDelete(cart: Cart, k: int, pid: ProductId)
    requires UniqueBy(cart, ItemKey)
    requires 0 <= k < |cart| && cart[k].Some?
    ensures Reserved(DeleteById(cart, cart[k].value.id), pid) == Reserved(cart, pid) - Contribution(cart[k], pid)
    decreases |cart|
  {
    var id := cart[k].value.id;
    var rest := cart[1..];
    if k == 0 {
      forall i | 0 <= i < |rest| && rest[i].Some?
        ensures rest[i].value.id != id
      {
        assert rest[i] == cart[i + 1];
        assert ItemKey(cart[0].value) != ItemKey(cart[i + 1].value);
      }
      ReservedDeleteAbsent(rest, id, pid);
    } else {
      assert UniqueBy(rest, ItemKey) by {
        forall i, j | 0 <= i < j < |rest| && rest[i].Some? && rest[j].Some?
          ensures ItemKey(rest[i].value) != ItemKey(rest[j].value)
        {
          assert rest[i] == cart[i + 1] && rest[j] == cart[j + 1];
        }
      }
      assert rest[k - 1] == cart[k];
      ReservedAfterDelete(rest, k - 1, pid);
      if cart[0].Some? {
        assert ItemKey(cart[0].value) != ItemKey(cart[k].value);
        assert ([cart[0]] + DeleteById(rest, id))[1..] == DeleteById(rest, id);
      }
    }
  }

  /** With unique products, the reserved total of a product is the quantity of its line. */
  lemma ReservedOwnLine(cart: Cart, k: int)
    requires UniqueBy(cart, ProductKey)
    requires 0 <= k < |cart| && cart[k].Some?
    ensures Reserved(cart, cart[k].value.product.id) == cart[k].value.quantity
  {
    var pid := cart[k].value.product.id;
    var others := cart[k := None];
    forall i | 0 <= i < |others| && others[i].Some?
      ensures others[i].value.product.id != pid
    {
      if i < k {
        assert ProductKey(cart[i].value) != ProductKey(cart[k].value);
      } else {
        assert ProductKey(cart[k].value) != ProductKey(cart[i].value);
      }
    }
    ReservedAbsent(others, pid);
    ReservedAfterSet(cart, k, None, pid);
  }
}

=== FILE: wrappers.dfy ===
/** The optional-value datatype used for the operations that can refuse a request
    or that throw on a malformed cart. */
module Wrappers {

  datatype Option<+T> = None | Some(value: T)
}
